=== FILE: README.md ===
# remote-source-map-explorer, modelled in Dafny

`remote-source-map-explorer` is a command-line tool: given the URL of a
JavaScript file, it fetches the script, finds the source map the script
links to, fetches that map and hands both to `source-map-explorer` to
render an HTML visualization, which it opens in a browser.

This project models the logic of `index.js` that decides what is fetched
and how the process exits:

- `JsString` — the two string built-ins modelled as functions, `startsWith`
  and `lastIndexOf` (`slice` is Dafny's own sequence slicing), over strings as sequences of Unicode scalar values.
- `UrlCheck` — the test `/^https?:\/\//`, applied to the command-line URL
  and to the extracted reference, modelled as a case-sensitive prefix test
  for `http://` or `https://`. A small backtracking matcher for anchored
  patterns of literal and optional characters gives the regular expression
  an independent meaning, and a lemma proves the two agree on every string.
- `SourceMapLocator` — the last line of the script body (everything after
  its final line feed), the `//# sourceMappingURL=` linking comment of the
  Source Map Revision 3 format, and the three outcomes: the absolute URL,
  "not found", or "does not look like a URL" carrying the reference.
- `Fetcher` — the request callback's classification: a transport error
  rejects, any status other than exactly 200 rejects carrying that status,
  otherwise the body is the result.
- `Pipeline` — one run: URL check, script fetch, locate, map fetch. The
  transport's answers are inputs; the result records the final status (the
  failing stage, or both bodies) and the URLs requested, in order, from
  which the exit code and the number of fetches follow.

Only the text after the very last line feed of the script is inspected, so
a body ending in a line feed (or in `\r\n`) never yields a reference. The
reference is not trimmed: trailing spaces or tabs, or a final bare `\r`,
stay in it. A relative reference ends the run with "does not look like a
URL" (relative resolution is marked as not done at index.js:74).

## Model

| member | source | states |
|---|---|---|
| `JsString.StartsWith` | index.js:68 | `startsWith` holds exactly when the string is the prefix followed by the rest of the string |
| `UrlCheck.LooksLikeUrl` | index.js:14 | the `URL_REGEX.test` used at index.js:31 and index.js:75 accepts exactly the strings that start with `http` followed by `://` or `s://`, case-sensitively |
| `JsString.LastIndexOf` | index.js:64 | the result is -1 exactly when the character is absent, otherwise an index holding it with no later occurrence |
| `JsString.LastIndexOfPrepend` | index.js:64 | putting any text in front of a string that contains the character shifts its last index by the text's length |
| `UrlCheck.LooksLikeUrlIsPattern` | index.js:14 | the prefix test for `http://` or `https://` accepts exactly the strings the anchored pattern `^https?:\/\/` matches |
| `SourceMapLocator.LastLine` | index.js:64 | the inspected line is a suffix of the body with no line feed, preceded by a line feed whenever it is not the whole body |
| `SourceMapLocator.Locate` | index.js:63-77 | "not found" exactly when the last line does not start with the token; otherwise token plus the result is the last line, an accepted result passes the URL check and a "not a URL" result fails it |
| `SourceMapLocator.LastLineWhole` | index.js:64 | a body without a line feed is inspected whole |
| `SourceMapLocator.LastLineAfterBreak` | index.js:64 | the last line of `p + "\n" + t`, for `t` without a line feed, is `t` for every `p` |
| `SourceMapLocator.LastLinePrepend` | index.js:64 | prepending any text to a body containing a line feed does not change its last line |
| `SourceMapLocator.LocateIgnoresPrefix` | index.js:63-77 | prepending any text to a body containing a line feed does not change what is located |
| `SourceMapLocator.LocateOnlyReadsLastLine` | index.js:63-77 | any two bodies with the same text after their final line feed locate alike |
| `SourceMapLocator.LocateTrailer` | index.js:63-77 | round trip: a body ending in a line feed, the token and a `u` without a line feed locates exactly `u`, untrimmed, when `u` starts with `http://` or `https://`, and is rejected as "not a URL" carrying `u` otherwise |
| `SourceMapLocator.LocateBareTrailer` | index.js:63-77 | the same round trip when the body is the linking comment alone |
| `SourceMapLocator.LocateOkIff` | index.js:63-77 | locating gives `u` if and only if the last line is the token followed by `u` and `u` passes the URL check |
| `SourceMapLocator.LocateTrailingNewline` | index.js:64-70 | a body ending in a line feed has an empty last line and always gives "not found" |
| `Fetcher.Classify` | index.js:44-56 | success exactly on a response with status 200, yielding its body; a transport error rejects with that error; any other status rejects carrying that status |
| `Fetcher.NotFoundStatus` | index.js:50-53 | a 404 response is a status failure carrying 404 |
| `Pipeline.Report.ExitCode` | index.js:99-109 | the exit code is 0 after a completed run and 1 after any failure |
| `Pipeline.Run` | index.js:31-109 | at most two requests, each to a URL that passed the URL check; none for an invalid argument; the first is the script URL; a second is made exactly when the script fetch and locating succeeded, to the located URL; completion needs both fetches to succeed and carries both bodies; every failure names its stage: an invalid argument carries the URL, a rejected script or map fetch carries that fetch's classification, and a failed locate is "not found" or "not a URL" with the reference |
| `Pipeline.ExitZeroIff` | index.js:99-109 | exit code 0 if and only if the URL is accepted, both responses have status 200 and locating succeeds |
| `Pipeline.MapServerError` | index.js:80-102 | a located absolute map URL answered with 500 ends with exit code 1 after exactly the two requests, reporting status 500 |
| `Pipeline.RelativeReferenceStops` | index.js:74-77 | a linking comment naming the relative path `app.js.map` ends the run with exit code 1 after the script request only |
| `Pipeline.FullSuccess` | index.js:62-109 | a script linking to an absolute map URL, with both requests answered 200, exits 0 after requesting the script and then that URL, passing both bodies on |

## Left out

- Command-line parsing with `docopt`, including `--help` and `--version` (index.js:16-27): an external library; the URL argument is a parameter of `Pipeline.Run`.
- The HTTP transport and gzip decoding (index.js:36-43): network I/O; what the transport reports is an input (`Fetcher.Outcome`).
- `Pipeline.Run`: the visualization (index.js:82-86) and the temporary file (index.js:88-89) are opaque calls and file I/O; the model assumes they succeed, although a throw in them would also end with exit code 1 through the handler at index.js:99-102.
- Opening the browser (index.js:92-98): a foreign call whose error is thrown in an asynchronous callback, racing `process.exit(0)` at index.js:108; that ordering is not modelled.
- JsString.LastIndexOf: indices count Unicode scalar values, not the UTF-16 code units JavaScript counts, so the number differs from `lastIndexOf` when an astral character precedes the last line feed; the index is only used to slice at index.js:64, so the last line is the same; lone surrogates cannot be represented in a Dafny string.
- Console output (index.js:60, 79, 81, 91, 100, 104, 107).
- Relative-reference resolution, base-URL joining and whitespace trimming: `index.js` does not implement them (see the note at index.js:74), so neither does the model.
- Node's exit code 1 for the uncaught exception at index.js:32 is taken as the exit code of an invalid argument.

=== FILE: fetcher.dfy ===
/**
 * Classification of one HTTP GET. The transport itself (request, gzip
 * decoding) is outside the model; what it hands back is an input here.
 */
module Fetcher {

  /** What the transport reports to the request callback. */
  datatype Outcome =
    | TransportError(error: string)                 // the callback's `error` is set
    | Responded(statusCode: int, body: string)      // a response arrived

  /** Why a fetch was rejected. */
  datatype FetchError =
    | NetworkError(error: string)
    | BadStatus(statusCode: int)

  datatype FetchResult = Fetched(body: string) | Rejected(error: FetchError)

  /**
   * A transport error rejects with that error; a response rejects with its
   * status code unless the code is exactly 200; otherwise the body is the
   * result.
   */
  function Classify(o: Outcome): (r: FetchResult)
    ensures r.Fetched? <==> o.Responded? && o.statusCode == 200
    ensures r.Fetched? ==> r.body == o.body
    ensures r.Rejected? && r.error.NetworkError? <==> o.TransportError?
    ensures r.Rejected? && r.error.NetworkError? ==> r.error.error == o.error
    ensures r.Rejected? && r.error.BadStatus? ==>
              r.error.statusCode != 200 && o == Responded(r.error.statusCode, o.body)
  {
    match o
    case TransportError(e) => Rejected(NetworkError(e))
    case Responded(code, body) => if code != 200 then Rejected(BadStatus(code)) else Fetched(body)
  }

  /** A 404 response is a status failure carrying 404, not a generic error. */
  lemma NotFoundStatus(body: string)
    ensures Classify(Responded(404, body)) == Rejected(BadStatus(404))
  {
  }
}

=== FILE: js_string.dfy ===
/**
 * The two JavaScript string built-ins modelled as functions (`slice` is
 * sequence slicing), over strings as sequences of Unicode scalar values
 * (`char`).
 */
module JsString {

  /** `s.startsWith(prefix)`: `prefix` is an initial segment of `s`. */
  predicate StartsWith(s: string, prefix: string): (b: bool)
    ensures b <==> |prefix| <= |s| && s == prefix + s[|prefix|..]
  {
    |prefix| <= |s| && s[..|prefix|] == prefix
  }

  /**
   * `s.lastIndexOf(c)`: the index of the last occurrence of `c` in `s`,
   * or -1 when `c` does not occur.
   */
  function LastIndexOf(s: string, c: char): (i: int)
    ensures -1 <= i < |s|
    ensures 0 <= i ==> s[i] == c
    ensures i == -1 ==> c !in s
    ensures forall j :: i < j < |s| ==> s[j] != c
  {
    if |s| == 0 then -1
    else if s[|s| - 1] == c then |s| - 1
    else LastIndexOf(s[..|s| - 1], c)
  }

  /** The three facts above pin the index down: any index with them is it. */
  lemma LastIndexOfUnique(s: string, c: char, i: int)
    requires -1 <= i < |s|
    requires 0 <= i ==> s[i] == c
    requires forall j :: i < j < |s| ==> s[j] != c
    ensures LastIndexOf(s, c) == i
  {
  }

  /** A prefix placed in front of a string that already holds `c` leaves the last `c` where it was. */
  lemma {:induction false} LastIndexOfPrepend(p: string, t: string, c: char)
    requires c in t
    ensures LastIndexOf(p + t, c) == |p| + LastIndexOf(t, c)
  {
    var k := LastIndexOf(t, c);
    var s := p + t;
    assert k != -1;
    assert s[|p| + k] == c;
    forall j | |p| + k < j < |s| ensures s[j] != c {
      assert s[j] == t[j - |p|];
    }
    LastIndexOfUnique(s, c, |p| + k);
  }
}

=== FILE: locator.dfy ===
/**
 * The source-map reference locator: the script's last line must be the
 * linking comment `//# sourceMappingURL=<url>` of the Source Map Revision 3
 * format, and `<url>` must be an absolute http(s) URL.
 */
module SourceMapLocator {
  import opened JsString
  import opened UrlCheck

  const SearchToken: string := "//# sourceMappingURL="

  /** What locating a source-map reference in a script body can give. */
  datatype Located =
    | Ok(url: string)              // an absolute http(s) reference
    | NotFound                     // the last line is not a linking comment
    | NotAUrl(reference: string)   // the linking comment names something else (a relative path, say)

  /**
   * `body.slice(body.lastIndexOf('\n') + 1)`: everything after the final
   * line feed, or the whole body when there is none. It is the longest
   * suffix of the body free of line feeds.
   */
  function LastLine(body: string): (line: string)
    ensures '\n' !in line
    ensures |line| <= |body| && body[|body| - |line|..] == line
    ensures |line| < |body| ==> body[|body| - |line| - 1] == '\n'
  {
    body[LastIndexOf(body, '\n') + 1..]
  }

  /** Locate the source-map reference named by the last line of `body`. */
  function Locate(body: string): (r: Located)
    ensures r.NotFound? <==> !StartsWith(LastLine(body), SearchToken)
    ensures r.Ok? ==> SearchToken + r.url == LastLine(body) && LooksLikeUrl(r.url)
    ensures r.NotAUrl? ==> SearchToken + r.reference == LastLine(body) && !LooksLikeUrl(r.reference)
  {
    var line := LastLine(body);
    if !StartsWith(line, SearchToken) then NotFound
    else
      var reference := line[|SearchToken|..];
      assert line == SearchToken + reference;
      if !LooksLikeUrl(reference) then NotAUrl(reference) else Ok(reference)
  }

  /** A body with no line feed is its own last line. */
  lemma {:induction false} LastLineWhole(body: string)
    requires '\n' !in body
    ensures LastLine(body) == body
  {
    LastIndexOfUnique(body, '\n', -1);
  }

  /** The last line of `p + "\n" + t`, for `t` free of line feeds, is `t`, whatever `p` is. */
  lemma {:induction false} LastLineAfterBreak(p: string, t: string)
    requires '\n' !in t
    ensures LastLine(p + "\n" + t) == t
  {
    var s := p + "\n" + t;
    assert s[|p|] == '\n';
    forall j | |p| < j < |s| ensures s[j] != '\n' {
      assert s[j] == t[j - |p| - 1];
    }
    LastIndexOfUnique(s, '\n', |p|);
    assert s[|p| + 1..] == t;
  }

  /** Only the tail counts: prepending content to a body that has a line feed leaves its last line unchanged. */
  lemma {:induction false} LastLinePrepend(p: string, body: string)
    requires '\n' in body
    ensures LastLine(p + body) == LastLine(body)
  {
    LastIndexOfPrepend(p, body, '\n');
    var k := LastIndexOf(body, '\n');
    assert (p + body)[|p| + k + 1..] == body[k + 1..];
  }

  /** Only the tail counts, for the locator: a prefix in front of a body with a line feed changes nothing. */
  lemma {:induction false} LocateIgnoresPrefix(p: string, body: string)
    requires '\n' in body
    ensures Locate(p + body) == Locate(body)
  {
    LastLinePrepend(p, body);
  }

  /** Content before the final line feed never matters: two bodies with the same last line locate alike. */
  lemma {:induction false} LocateOnlyReadsLastLine(p: string, q: string, t: string)
    requires '\n' !in t
    ensures Locate(p + "\n" + t) == Locate(q + "\n" + t)
  {
    LastLineAfterBreak(p, t);
    LastLineAfterBreak(q, t);
  }

  /**
   * Round trip: a script ending in the linking comment for `u` locates
   * exactly `u` when `u` is an absolute http(s) URL, untrimmed, and is
   * rejected as "not a URL", carrying `u`, otherwise.
   */
  lemma {:induction false} LocateTrailer(p: string, u: string)
    requires '\n' !in u
    ensures Locate(p + "\n" + SearchToken + u) == if LooksLikeUrl(u) then Ok(u) else NotAUrl(u)
  {
    assert '\n' !in SearchToken;
    assert p + "\n" + SearchToken + u == p + "\n" + (SearchToken + u);
    LastLineAfterBreak(p, SearchToken + u);
    assert (SearchToken + u)[..|SearchToken|] == SearchToken;
    assert (SearchToken + u)[|SearchToken|..] == u;
  }

  /** The same round trip for a script that is nothing but the linking comment. */
  lemma {:induction false} LocateBareTrailer(u: string)
    requires '\n' !in u
    ensures Locate(SearchToken + u) == if LooksLikeUrl(u) then Ok(u) else NotAUrl(u)
  {
    assert '\n' !in SearchToken;
    LastLineWhole(SearchToken + u);
    assert (SearchToken + u)[..|SearchToken|] == SearchToken;
    assert (SearchToken + u)[|SearchToken|..] == u;
  }

  /** Success exactly when the last line is the linking comment for an absolute http(s) URL. */
  lemma {:induction false} LocateOkIff(body: string, u: string)
    ensures Locate(body) == Ok(u) <==> LastLine(body) == SearchToken + u && LooksLikeUrl(u)
  {
    if LastLine(body) == SearchToken + u {
      assert LastLine(body)[..|SearchToken|] == SearchToken;
      assert LastLine(body)[|SearchToken|..] == u;
    }
  }

  /** A body ending in a line feed has an empty last line, so no reference is ever found in it. */
  lemma {:induction false} LocateTrailingNewline(p: string)
    ensures LastLine(p + "\n") == []
    ensures Locate(p + "\n") == NotFound
  {
    LastLineAfterBreak(p, []);
    assert p + "\n" + [] == p + "\n";
  }
}

=== FILE: pipeline.dfy ===
/**
 * The run of the tool: check the script URL, fetch the script, locate its
 * source map, fetch the map. Fetch outcomes are inputs, so the model does
 * no I/O; the report says how the process exits and which URLs it fetched.
 */
module Pipeline {
  import opened UrlCheck
  import opened SourceMapLocator
  import opened Fetcher

  /** The stage at which a run stopped, with what it carried. */
  datatype RunError =
    | InvalidUrl(url: string)
    | ScriptFetchFailed(scriptError: FetchError)
    | SourceMapNotFound
    | SourceMapNotAUrl(reference: string)
    | MapFetchFailed(mapError: FetchError)

  datatype Status =
    | Completed(scriptBody: string, mapBody: string)   // both bodies handed to the visualizer
    | Aborted(error: RunError)

  /** The end of a run: its status and the URLs it requested, in order. */
  datatype Report = Report(status: Status, requested: seq<string>) {
    /** The process exit code: `process.exit(0)` after success, 1 on every failure path. */
    function ExitCode(): (code: int)
      ensures code == 0 || code == 1
      ensures code == 0 <==> status.Completed?
    {
      if status.Completed? then 0 else 1
    }
  }

  /**
   * One run for the command-line argument `scriptUrl`. `scriptOutcome` is
   * what the transport gives for the script request and `mapOutcome` what it
   * would give for the source-map request, if that is made.
   */
  function Run(scriptUrl: string, scriptOutcome: Outcome, mapOutcome: Outcome): (r: Report)
    ensures |r.requested| <= 2
    ensures forall i :: 0 <= i < |r.requested| ==> LooksLikeUrl(r.requested[i])
    ensures |r.requested| == 0 <==> !LooksLikeUrl(scriptUrl)
    ensures |r.requested| > 0 ==> r.requested[0] == scriptUrl
    ensures |r.requested| == 2 <==>
              LooksLikeUrl(scriptUrl) && Classify(scriptOutcome).Fetched?
              && Locate(Classify(scriptOutcome).body).Ok?
    ensures |r.requested| == 2 ==> r.requested[1] == Locate(scriptOutcome.body).url
    ensures r.status.Completed? ==>
              |r.requested| == 2 && Classify(mapOutcome).Fetched?
              && r.status.scriptBody == scriptOutcome.body && r.status.mapBody == mapOutcome.body
    ensures r.status.Aborted? && r.status.error.MapFetchFailed? ==>
              |r.requested| == 2 && Classify(mapOutcome) == Rejected(r.status.error.mapError)
    ensures !LooksLikeUrl(scriptUrl) ==> r.status == Aborted(InvalidUrl(scriptUrl))
    ensures LooksLikeUrl(scriptUrl) && Classify(scriptOutcome).Rejected? ==>
              r.status == Aborted(ScriptFetchFailed(Classify(scriptOutcome).error))
    ensures |r.requested| == 1 && Classify(scriptOutcome).Fetched? ==>
              r.status == Aborted(if Locate(scriptOutcome.body).NotFound? then SourceMapNotFound
                                  else SourceMapNotAUrl(Locate(scriptOutcome.body).reference))
    ensures |r.requested| == 2 && Classify(mapOutcome).Rejected? ==>
              r.status == Aborted(MapFetchFailed(Classify(mapOutcome).error))
  {
    if !LooksLikeUrl(scriptUrl) then Report(Aborted(InvalidUrl(scriptUrl)), [])
    else match Classify(scriptOutcome)
      case Rejected(e) => Report(Aborted(ScriptFetchFailed(e)), [scriptUrl])
      case Fetched(scriptBody) =>
        match Locate(scriptBody)
        case NotFound => Report(Aborted(SourceMapNotFound), [scriptUrl])
        case NotAUrl(reference) => Report(Aborted(SourceMapNotAUrl(reference)), [scriptUrl])
        case Ok(mapUrl) =>
          match Classify(mapOutcome)
          case Rejected(e) => Report(Aborted(MapFetchFailed(e)), [scriptUrl, mapUrl])
          case Fetched(mapBody) => Report(Completed(scriptBody, mapBody), [scriptUrl, mapUrl])
  }

  /** Exit code 0 exactly when every stage succeeds; any other run exits 1. */
  lemma ExitZeroIff(scriptUrl: string, scriptOutcome: Outcome, mapOutcome: Outcome)
    ensures Run(scriptUrl, scriptOutcome, mapOutcome).ExitCode() == 0 <==>
              && LooksLikeUrl(scriptUrl)
              && scriptOutcome.Responded? && scriptOutcome.statusCode == 200
              && Locate(scriptOutcome.body).Ok?
              && mapOutcome.Responded? && mapOutcome.statusCode == 200
  {
  }

  /**
   * End to end: a script served with 200 whose last line links to an
   * absolute map URL `m`, and a map request answered with 500, exits 1
   * after exactly the two requests, reporting status 500.
   */
  lemma {:induction false} MapServerError(scriptUrl: string, prefix: string, m: string, mapBody: string)
    requires LooksLikeUrl(scriptUrl) && LooksLikeUrl(m) && '\n' !in m
    ensures var r := Run(scriptUrl, Responded(200, prefix + "\n" + SearchToken + m), Responded(500, mapBody));
            && r.ExitCode() == 1
            && r.requested == [scriptUrl, m]
            && r.status == Aborted(MapFetchFailed(BadStatus(500)))
  {
    LocateTrailer(prefix, m);
  }

  /** End to end: a linking comment naming a relative path stops the run after the script fetch. */
  lemma {:induction false} RelativeReferenceStops(scriptUrl: string, prefix: string, mapOutcome: Outcome)
    requires LooksLikeUrl(scriptUrl)
    ensures var r := Run(scriptUrl, Responded(200, prefix + "\n" + SearchToken + "app.js.map"), mapOutcome);
            && r.ExitCode() == 1
            && r.requested == [scriptUrl]
            && r.status == Aborted(SourceMapNotAUrl("app.js.map"))
  {
    var reference := "app.js.map";
    assert reference[0] != 'h';
    LocateTrailer(prefix, reference);
  }

  /** End to end: both fetches succeed, so the run exits 0 with both bodies handed on. */
  lemma {:induction false} FullSuccess(scriptUrl: string, prefix: string, m: string, mapBody: string)
    requires LooksLikeUrl(scriptUrl) && LooksLikeUrl(m) && '\n' !in m
    ensures var body := prefix + "\n" + SearchToken + m;
            var r := Run(scriptUrl, Responded(200, body), Responded(200, mapBody));
            && r.ExitCode() == 0
            && r.requested == [scriptUrl, m]
            && r.status == Completed(body, mapBody)
  {
    LocateTrailer(prefix, m);
  }
}

=== FILE: url_check.dfy ===
/**
 * The script-URL test `/^https?:\/\//`, used on the command-line argument
 * and on the extracted source-map reference.
 */
module UrlCheck {
  import opened JsString

  const HttpPrefix: string := "http://"
  const HttpsPrefix: string := "https://"

  /**
   * The check as the tool uses it: a case-sensitive prefix test. Read as the
   * pattern reads: `http`, then either `://` or `s://`.
   */
  predicate LooksLikeUrl(s: string): (b: bool)
    ensures b <==> StartsWith(s, "http") && (StartsWith(s[4..], "://") || StartsWith(s[4..], "s://"))
  {
    StartsWithConcat(s, "http", "://");
    StartsWithConcat(s, "http", "s://");
    assert HttpPrefix == "http" + "://" && HttpsPrefix == "http" + "s://";
    StartsWith(s, HttpPrefix) || StartsWith(s, HttpsPrefix)
  }

  /** One element of an anchored regular expression made of literals and `x?`. */
  datatype Atom = Lit(c: char) | Opt(c: char)

  /** The regular expression `^https?:\/\/`, atom by atom. */
  const UrlPattern: seq<Atom> :=
    [Lit('h'), Lit('t'), Lit('t'), Lit('p'), Opt('s'), Lit(':'), Lit('/'), Lit('/')]

  /**
   * Backtracking match of an anchored pattern against the start of `s`, as a
   * regular-expression engine does it: a greedy `x?` first tries to take `x`,
   * then tries without it. Nothing is required after the pattern (no `$`).
   */
  predicate Matches(pattern: seq<Atom>, s: string)
    decreases |pattern|
  {
    if pattern == [] then true
    else match pattern[0]
      case Lit(c) => |s| > 0 && s[0] == c && Matches(pattern[1..], s[1..])
      case Opt(c) =>
        (|s| > 0 && s[0] == c && Matches(pattern[1..], s[1..])) || Matches(pattern[1..], s)
  }

  /** A string written as a pattern of literal atoms. */
  function Literal(w: string): (p: seq<Atom>)
    ensures |p| == |w|
    ensures forall i :: 0 <= i < |w| ==> p[i] == Lit(w[i])
  {
    if w == [] then [] else [Lit(w[0])] + Literal(w[1..])
  }

  /** Matching a literal run is a prefix test followed by matching the rest after it. */
  lemma {:induction false} MatchesLiteral(w: string, rest: seq<Atom>, s: string)
    ensures Matches(Literal(w) + rest, s) <==> StartsWith(s, w) && Matches(rest, s[|w|..])
    decreases |w|
  {
    if w == [] {
      assert Literal(w) + rest == rest;
    } else {
      var p := Literal(w) + rest;
      assert p[0] == Lit(w[0]);
      assert p[1..] == Literal(w[1..]) + rest;
      if |s| > 0 && s[0] == w[0] {
        MatchesLiteral(w[1..], rest, s[1..]);
        if |w| <= |s| {
          assert s[1..][|w| - 1..] == s[|w|..];
        }
        assert StartsWith(s, w) <==> StartsWith(s[1..], w[1..]);
      }
    }
  }

  /** A prefix test for `a + b` is a test for `a` followed by a test for `b` on what follows. */
  lemma StartsWithConcat(s: string, a: string, b: string)
    ensures StartsWith(s, a + b) <==> StartsWith(s, a) && StartsWith(s[|a|..], b)
  {
    if |a| + |b| <= |s| {
      assert s[..|a| + |b|] == s[..|a|] + s[|a|..][..|b|];
    }
  }

  /** The pattern as three steps: `http`, then an optional `s`, then `://`. */
  lemma {:induction false} PatternSteps(s: string)
    ensures Matches(UrlPattern, s) <==>
              StartsWith(s, "http") &&
              ((|s| > 4 && s[4] == 's' && StartsWith(s[5..], "://")) || StartsWith(s[4..], "://"))
  {
    var tail := Literal("://");
    assert tail + [] == tail;
    assert UrlPattern == Literal("http") + ([Opt('s')] + tail);
    MatchesLiteral("http", [Opt('s')] + tail, s);
    if StartsWith(s, "http") {
      var r := s[4..];
      var p := [Opt('s')] + tail;
      assert p[0] == Opt('s') && p[1..] == tail;
      MatchesLiteral("://", [], r);
      if |r| > 0 {
        MatchesLiteral("://", [], r[1..]);
        assert r[1..] == s[5..];
      }
    }
  }

  /** The prefix test accepts exactly the strings the regular expression matches. */
  lemma {:induction false} LooksLikeUrlIsPattern(s: string)
    ensures LooksLikeUrl(s) <==> Matches(UrlPattern, s)
  {
    PatternSteps(s);
    assert HttpPrefix == "http" + "://";
    assert HttpsPrefix == "http" + "s://";
    StartsWithConcat(s, "http", "://");
    StartsWithConcat(s, "http", "s://");
    if StartsWith(s, "http") {
      var r := s[4..];
      assert "s://" == "s" + "://";
      StartsWithConcat(r, "s", "://");
      if |r| > 0 {
        assert r[1..] == s[5..];
      }
    }
  }
}
